=== FILE: README.md ===
# Dino runner simulation core, in Dafny

A model of the deterministic simulation at the heart of the dinosaur-runner
game that trains NEAT networks (`main.py`). Each tick of the game:

- obstacles (small cacti, large cacti, birds) may spawn at the right edge,
  scroll left at the current game speed and are removed once fully
  off-screen;
- each dinosaur perceives the nearest obstacle ahead as five numbers, its
  network (or the player's keys) decides on UP/DOWN, and its pose state
  machine (run, jump, duck) advances;
- collisions are decided by mask overlap at each obstacle's offset from the
  dinosaur;
- in training, every live genome earns 0.1 fitness per tick, and a genome
  whose dinosaur collides loses 1 and is dropped from the three parallel
  lists (dinosaurs, networks, genomes) at once;
- the game speed grows by 0.001 and the score by 0.25 per tick.

Everything is pure functions over immutable datatypes with exact `real`
arithmetic. Some things are parameters rather than code:

- random draws: `SpawnRoll`;
- image sizes: `Measure`;
- pixel-mask overlap: `Overlap`;
- the networks: `Activate`.

Modules, one per file:

| file | module | models |
|---|---|---|
| options.dfy | Options | optional value |
| sprites.dfy | Sprites | image identities, frame indices, sizes, overlap predicate |
| selection.dfy | Selection | order-preserving removal by flags (both per-tick filters) |
| dinosaur.dfy | Dinosaur | `Dinosaur.update/run/jump/duck` |
| obstacles.dfy | Obstacles | `Obstacle`, `SmallCactus`, `LargeCactus`, `Bird`, `spawn_obstacles`, the scroll-and-remove loop |
| perception.dfy | Perception | `get_ai_inputs` |
| collision.dfy | Collision | `check_collision` |
| world.dfy | World | `game_speed`, `points`, `obstacles` and their per-tick updates |
| generation.dfy | Generation | the body and loop of `eval_genomes` |
| human.dfy | HumanPlay | `reset` and the loop of `human_play` |

## Behaviour worth knowing

- **Where a jump ends.** The arc of `jump` ends 8.8 pixels above the ground
  in exact arithmetic (`ArcHeights`). The following `update` pins the
  dinosaur back to the ground: `run` or `duck` sets the height
  (`LandingReturnsToGround`, `JumpCycle`).
- **The landing tick.** The tick a jump ends on leaves all three flags
  (`dino_run`, `dino_jump`, `dino_duck`) false. The model keeps the three
  flags and proves that at most one is ever set.
- **The take-off tick.** On the tick UP starts a jump, none of `run`,
  `jump` or `duck` is called: the dinosaur keeps its height, step counter
  and running image for that tick, and that image is the mask
  `check_collision` compares.
- **Order within a tick.** In training, obstacles spawn and scroll at the old speed,
  dinosaurs move and are culled, and speed and score advance at the end of
  the tick. In `human_play` the player moves first and the obstacles
  spawn and scroll after it.
- **Ties.** When two obstacles are equally near, Python's `min` keeps the
  first one, and so does `NearestAhead`.

## Model

| member | source | states |
|---|---|---|
| Dinosaur.New | main.py:255-266 | A new dinosaur is running at (80, 310) with jump velocity 8.5, step counter 0 and the first run frame, in a reachable state |
| Dinosaur.Update | main.py:268-305 | Fixed precedence: ongoing jump (keys ignored, y falls by 4×velocity, velocity drops by 0.8 and is reset to 8.5 exactly when the jump ends), then a jump start only on UP at exactly y = 310 (on that tick y, step index and image are left as they were), then duck (y pinned to 340), then run (y pinned to 310); `run` and `duck` (main.py:289-292 and 302-305, modelled as `Run` and `Duck`, with `Jump` for main.py:294-300; wrap at main.py:286-287) show frame step index // 5 of the entry counter and then add 1 wrapping at 10, and a pose that calls neither leaves the counter alone |
| Dinosaur.UpdatePreservesReachable | main.py:268-305 | From a reachable state, update keeps the flags mutually exclusive, run/duck heights pinned, step index in 0..9, and the velocity on the arc (8.5 when not jumping) with the matching height |
| Dinosaur.ReachableBounds | main.py:286-300 | In a reachable state the jump velocity is within [-8.5, 8.5], at most one pose flag is set, and the sprite index step_index // 5 is 0 or 1 |
| Dinosaur.JumpIgnoresKeys | main.py:269-270 | While a jump is under way, the result of update does not depend on the keys |
| Dinosaur.NoJumpFromDuck | main.py:271-276 | A ducking dinosaur can never start a jump on the next update |
| Dinosaur.ArcStep | main.py:294-300 | One jump call k steps into the arc moves to step k+1 while k+1 < 22, and ends the jump, with velocity reset to 8.5, exactly at the 22nd call |
| Dinosaur.JumpDuration | main.py:294-300 | A jump started on the ground stays in the air for exactly 22 further updates, whatever the keys, then ends with velocity 8.5 |
| Dinosaur.ArcRiseClosedForm | main.py:296-297 | The height gained after k jump calls is k(35.6 - 1.6k) |
| Dinosaur.ArcHeights | main.py:294-300 | During the arc the dinosaur is strictly above the ground, at most 198 px up (reached at call 11); the arc ends 8.8 px above ground |
| Dinosaur.LandingReturnsToGround | main.py:271-292 | On the tick after a jump ends the dinosaur cannot jump again and is pinned to y = 310 (running) or y = 340 (ducking) |
| Dinosaur.JumpCycle | main.py:268-305 | UP from the ground gives a take-off tick still at y = 310, 21 more jumping ticks above ground, a landing tick above ground, and then the dinosaur is back at ground or ducking height |
| Obstacles.Image | main.py:329-364 | A small or large cactus shows the image of the variant drawn when it was created; a bird shows frame index // 5 % 2 |
| Obstacles.CactusImageFixed | main.py:336-338 | Moving a cactus never changes the image it shows |
| Obstacles.BirdFlaps | main.py:361-364 | A bird changes frame on a tick exactly when its counter reaches a multiple of 5 |
| Obstacles.Create | main.py:329-360 | A new obstacle starts at x = 1100; small cactus at y = 325, large cactus at 300, bird at 250 with counter 0; its rectangle has its first image's size |
| Obstacles.Spawn | main.py:98-106 | An empty list always gains one obstacle; a list of 2 or more is unchanged whatever the draws; a list of 1 gains one iff the gate draw is 0; the gain is at the end, earlier obstacles unchanged; never more than 2 |
| Obstacles.Advance | main.py:336-338 | Moving decreases x by exactly the speed, keeps y and size, and advances a bird's counter by one |
| Obstacles.Scroll | main.py:147-150 | After the loop no obstacle is off-screen (`OffScreen`: x < -width, the value `update` returns at main.py:338) and none was added |
| Obstacles.ScrollMembers | main.py:147-150 | A moved obstacle survives the loop iff it is still on screen, and every survivor is some old obstacle moved by the speed |
| Obstacles.ScrollKeepsOnScreenInOrder | main.py:147-150 | The loop keeps exactly the moved obstacles with x ≥ -width, each moved by the speed, in their original order |
| Obstacles.BirdFrameInRange | main.py:364 | The bird frame index index // 5 % 2 is 0 or 1 |
| Selection.SelectAt | main.py:152-167 | The j-th survivor of a flag filter is the element at the j-th set flag, with positions strictly increasing |
| Selection.SelectDistinct | main.py:152-167 | Filtering distinct genomes keeps a genome iff its flag is set, and the survivors stay distinct |
| Perception.NearestAhead | main.py:197-198 | None iff no obstacle is strictly ahead; otherwise an obstacle strictly ahead at minimal distance, the first of any tie |
| Perception.Features | main.py:196-208 | Five values; all zero iff nothing is ahead; otherwise the first is positive and the least distance ahead over 1100, then the width and height over 100 of the first obstacle at that distance (`NearestAhead`), the dinosaur's y over 600 and the speed over 50 |
| Collision.Collides | main.py:368-374 | True iff some obstacle's mask overlaps (`Touches`, main.py:371-372) the dinosaur's at offset (obstacle − dinosaur); false for no obstacles |
| Collision.TranslationInvariant | main.py:371-372 | Moving the dinosaur and all obstacles by one vector does not change the verdict |
| Collision.OrderIrrelevant | main.py:370-374 | Any reordering of the obstacle list gives the same verdict |
| World.Start | main.py:127-130 | A generation starts at speed 20, score 0, no obstacles |
| World.MoveObstacles | main.py:145-150 | Spawning then scrolling keeps at most 2 obstacles, none off-screen, and leaves speed and score alone |
| World.MoveObstaclesKeepsOnScreen | main.py:145-150 | After a tick the world holds every old obstacle still on screen once moved, the spawned one when there was room and it is on screen, and nothing else |
| World.AdvanceClock | main.py:168-169 | Speed strictly increases by 0.001 and score by 0.25 each tick; obstacles untouched |
| World.ClockAfter | main.py:168-169 | After n ticks from the start the speed is 20 + n/1000 and the score n/4 (the same increments as `human_play` at main.py:86-87) |
| Generation.Begin | main.py:118-130 | One fresh dinosaur per network, every fitness 0, parallel lists aligned, fresh world |
| Generation.Decide | main.py:154-155 | UP is pressed iff the first output exceeds 0.5, DOWN iff the second does |
| Generation.Reward | main.py:159-165 | Each live genome gains 0.1 and, if its dinosaur collided, loses 1; no other genome changes |
| Generation.Tick | main.py:145-169 | The three lists stay the same length and aligned, the live count never grows, at most 2 obstacles stay at most 2, speed and score grow by their increments, and the obstacles are those `MoveObstacles` leaves |
| Generation.TickBookkeeping | main.py:152-167 | A genome still live after a tick gained exactly 0.1; one dropped gained 0.1 and lost 1; a genome already dropped keeps its fitness |
| Generation.TickCullsExactlyColliders | main.py:152-167 | A dinosaur is dropped iff its moved self (`Move`: `update` with the keys its network decides, main.py:154-156) collides; survivors keep their order, and each survivor's dinosaur, network and genome come from one original entry |
| Generation.TickKeepsDinosReachable | main.py:153-156 | Every surviving dinosaur is still in a reachable state |
| Generation.WorldIndependentOfAgents | main.py:145-169 | The world after a tick does not depend on the dinosaurs, networks or fitness |
| Generation.Evaluate | main.py:132-133 | No tick for an empty population; it stops before the rolls run out only when no dinosaur is live; the live count never grows |
| Generation.EvaluateFollowsTrace | main.py:132-169 | The loop ends on the state after its last tick of the uninterrupted tick trace, and every tick it ran started with at least one live dinosaur: it ticks exactly while a dinosaur is live |
| Generation.EvaluateClock | main.py:168-169 | Over a generation, speed and score grow by exactly one increment per tick run |
| Generation.EvaluateFitness | main.py:152-167 | At the end, a surviving genome earned 0.1 per tick run; a dropped genome was dropped on one tick k+1 of the run (and no other), earned 0.1 for each of the ticks 1..k+1 and lost 1 once; others are unchanged |
| Generation.TraceBooked | main.py:158-165 | Every tick of the trace adds 0.1 to each live genome, takes 1 from each one it drops, and leaves the others alone |
| Generation.OnlyDrops | main.py:157-167 | Once a genome is dropped it is never live again |
| Generation.DroppedOnce | main.py:157-167 | A genome is dropped on at most one tick |
| HumanPlay.Begin | main.py:52-58 | A reset gives exactly a new dinosaur (running at x = 80, y = 310, counter 0, first run frame) in a fresh world |
| HumanPlay.Tick | main.py:72-94 | The player moves with the keys before obstacles spawn and scroll; the game is over iff the moved player overlaps a moved obstacle; the obstacles are those `MoveObstacles` leaves; speed and score advance |
| HumanPlay.SameWorldAsTraining | main.py:79-87 | From the same world and draws, a human tick and a training tick leave the same speed, score and obstacles |
| HumanPlay.TickKeepsPlayerReachable | main.py:76 | The player stays in a reachable state |

## Left out

- Rendering, the event loop, `clock.tick`, fonts, asset loading, `draw`, `draw_score`, `draw_background` and the debug overlay: display and I/O.
- `Cloud`: cosmetic, no effect on the simulation.
- NEAT itself is a foreign library, so it is left out: `neat.Config`, `Population.run`, `run_ai_training` and `FeedForwardNetwork.create`. Networks are an opaque type `N` with an `Activate` function. The `generation` counter is only displayed, so it is left out too.
- `menu` and `main` (interactive menu, `input()`, `sys.exit`): interactive I/O. A human session's end is the `over` flag of `HumanPlay.Tick`.
- `random.randint`: the draws are passed in as `SpawnRoll` values with their ranges as types (gate 0..60, kind 0..2, variant 0..2).
- Pixel masks and `Mask.overlap`: foreign library. Mask overlap is the `Overlap` parameter, and image sizes are the `Measure` parameter.
- Dinosaur.ArcHeights: pygame `Rect` stores integer coordinates, so the code truncates `y -= jump_vel * 4` after each step, and the gravity step 0.8 is not exact in binary floating point. The model uses exact reals, so heights such as the 8.8 px landing height are those of exact arithmetic.
- Obstacles.Advance: pygame's `rect.x` is an integer (main.py:337), so `x -= speed` truncates; from the second tick on the speed is fractional and an obstacle at positive x moves 21 px per tick rather than 20.001, which also shifts the tick on which it reaches the dinosaur. The model moves x by exactly the speed.
- World.AdvanceClock: 0.001 is not exact in binary floating point, and the rounding of `game_speed += 0.001` is not modelled. The speed grows by exact reals; the score step 0.25 is exact either way.
- Generation.Reward: fitness is a Python float and 0.1 is not exact in binary, so rewards accumulate with rounding (three rewards sum to 0.30000000000000004). The model adds exact reals, so `TickBookkeeping` and `EvaluateFitness` state exact multiples of 0.1.
- Generation.Evaluate: the Python loop has no bound. The model runs at most one tick per given spawn roll, so a generation in which some dinosaur never collides is seen only up to that many ticks.
- A network returning NaN cannot be expressed with reals.
- The Python loop removes obstacles with `list.remove`, which compares by identity. Each obstacle object occurs once in the list, so this is filtering by the flag that `update` returned.

=== FILE: collision.dfy ===
/**
 * `check_collision`: does the dinosaur's mask overlap the mask of any
 * obstacle, each compared at the obstacle's offset from the dinosaur?
 */
module Collision {
  import opened Sprites
  import opened Dinosaur
  import opened Obstacles

  /** The mask test for one obstacle, at offset (obstacle - dinosaur). */
  predicate Touches(overlap: Overlap, d: Dino, o: Obstacle) {
    overlap(d.image, Image(o), o.x - d.x, o.y - d.y)
  }

  /** Scan the obstacles in order and report the first overlap. */
  function Collides(overlap: Overlap, d: Dino, obstacles: seq<Obstacle>): (hit: bool)
    ensures hit <==> exists i :: 0 <= i < |obstacles| && Touches(overlap, d, obstacles[i])
    ensures |obstacles| == 0 ==> !hit
  {
    if |obstacles| == 0 then false
    else Touches(overlap, d, obstacles[0]) || Collides(overlap, d, obstacles[1..])
  }

  /** The dinosaur moved by (dx, dy). */
  function ShiftDino(d: Dino, dx: real, dy: real): Dino {
    d.(x := d.x + dx, y := d.y + dy)
  }

  /** Every obstacle moved by (dx, dy). */
  function ShiftAll(obstacles: seq<Obstacle>, dx: real, dy: real): (r: seq<Obstacle>)
    ensures |r| == |obstacles|
  {
    seq(|obstacles|, i requires 0 <= i < |obstacles| => obstacles[i].(x := obstacles[i].x + dx, y := obstacles[i].y + dy))
  }

  /**
   * Collision depends only on positions relative to the dinosaur: moving
   * the dinosaur and every obstacle by the same vector changes nothing.
   */
  lemma TranslationInvariant(overlap: Overlap, d: Dino, obstacles: seq<Obstacle>, dx: real, dy: real)
    ensures Collides(overlap, ShiftDino(d, dx, dy), ShiftAll(obstacles, dx, dy)) == Collides(overlap, d, obstacles)
  {
    var moved := ShiftAll(obstacles, dx, dy);
    forall i | 0 <= i < |obstacles|
      ensures Touches(overlap, ShiftDino(d, dx, dy), moved[i]) == Touches(overlap, d, obstacles[i])
    {
      assert moved[i].x - (d.x + dx) == obstacles[i].x - d.x;
      assert moved[i].y - (d.y + dy) == obstacles[i].y - d.y;
    }
  }

  /** The order in which obstacles are visited does not change the verdict. */
  lemma OrderIrrelevant(overlap: Overlap, d: Dino, a: seq<Obstacle>, b: seq<Obstacle>)
    requires multiset(a) == multiset(b)
    ensures Collides(overlap, d, a) == Collides(overlap, d, b)
  {
    if Collides(overlap, d, a) {
      var i :| 0 <= i < |a| && Touches(overlap, d, a[i]);
      assert a[i] in multiset(b);
      var j :| 0 <= j < |b| && b[j] == a[i];
    }
    if Collides(overlap, d, b) {
      var j :| 0 <= j < |b| && Touches(overlap, d, b[j]);
      assert b[j] in multiset(a);
      var i :| 0 <= i < |a| && a[i] == b[j];
    }
  }
}

=== FILE: dinosaur.dfy ===
/**
 * The dinosaur: its pose flags, vertical motion and animation counter, as
 * advanced once per tick by `update` (class Dinosaur in main.py).
 */
module Dinosaur {
  import opened Sprites

  const X_POS: real := 80.0
  /** Top edge of the rectangle when running on the ground. */
  const Y_POS: real := 310.0
  /** Top edge of the rectangle when ducking. */
  const Y_POS_DUCK: real := 340.0
  /** Vertical velocity at the start of a jump, and the bound of the arc. */
  const JUMP_VEL: real := 8.5
  /** What every call of `jump` takes off the vertical velocity. */
  const GRAVITY: real := 0.8
  /** Pixels moved per unit of vertical velocity on every call of `jump`. */
  const JUMP_SCALE: real := 4.0
  /** Number of `jump` calls from a jump's start to its end. */
  const JUMP_CALLS: nat := 22
  /** The run and duck animations cycle through this many steps, five per frame. */
  const STEP_CYCLE: nat := 10
  const STEPS_PER_FRAME: nat := 5

  /** The keys `update` reads: K_UP and K_DOWN. */
  datatype Keys = Keys(up: bool, down: bool)

  /**
   * A dinosaur. `running`, `jumping` and `ducking` are the three flags
   * dino_run, dino_jump and dino_duck; (x, y) is the top-left corner of its
   * rectangle, with y growing downwards.
   */
  datatype Dino = Dino(
    x: real,
    y: real,
    jumpVel: real,
    running: bool,
    jumping: bool,
    ducking: bool,
    stepIndex: nat,
    image: DinoImage)

  /** A dinosaur as built at the start of a game or generation. */
  function New(): (d: Dino)
    ensures Reachable(d)
    ensures d.running && !d.jumping && !d.ducking
    ensures d.x == X_POS && d.y == Y_POS
    // the animation starts at the first run frame with the counter at zero
    ensures d.jumpVel == JUMP_VEL && d.stepIndex == 0 && d.image == RunImage(0)
  {
    assert ArcVel(0) == JUMP_VEL;
    Dino(X_POS, Y_POS, JUMP_VEL, true, false, false, 0, RunImage(0))
  }

  /** One call of `run`: pin to the ground and show the next run frame. */
  function Run(d: Dino): Dino
    requires d.stepIndex < STEP_CYCLE
  {
    d.(image := RunImage(d.stepIndex / STEPS_PER_FRAME), y := Y_POS, stepIndex := d.stepIndex + 1)
  }

  /** One call of `duck`: pin to the ducking height and show the next duck frame. */
  function Duck(d: Dino): Dino
    requires d.stepIndex < STEP_CYCLE
  {
    d.(image := DuckImage(d.stepIndex / STEPS_PER_FRAME), y := Y_POS_DUCK, stepIndex := d.stepIndex + 1)
  }

  /**
   * One call of `jump`: rise by four times the velocity, lose GRAVITY of
   * velocity, and end the jump (resetting the velocity) once it falls below
   * -JUMP_VEL.
   */
  function Jump(d: Dino): Dino {
    var v := d.jumpVel - GRAVITY;
    var moved := d.(image := JumpImage, y := d.y - d.jumpVel * JUMP_SCALE, jumpVel := v);
    if v < -JUMP_VEL then moved.(jumping := false, jumpVel := JUMP_VEL) else moved
  }

  /**
   * `update`: first choose the pose flags with the fixed precedence
   * (ongoing jump, jump start, duck, run), then run `run` or `duck` if
   * their flag is set, then wrap the step counter at STEP_CYCLE.
   * The source indexes a two-image list with step_index // 5, so it needs
   * step_index below 10 on entry.
   */
  function Update(d: Dino, keys: Keys): (r: Dino)
    requires d.stepIndex < STEP_CYCLE
    ensures r.stepIndex < STEP_CYCLE
    ensures r.x == d.x
    // an ongoing jump leaves the other flags alone and, when they are clear,
    // moves along its arc whatever the keys say
    ensures d.jumping ==> r.running == d.running && r.ducking == d.ducking
    // the velocity loses GRAVITY per call and is reset to JUMP_VEL when the jump ends
    ensures d.jumping && r.jumping ==> r.jumpVel == d.jumpVel - GRAVITY
    ensures d.jumping && !r.jumping ==> r.jumpVel == JUMP_VEL && d.jumpVel - GRAVITY < -JUMP_VEL
    ensures d.jumping && !d.running && !d.ducking ==>
      r.y == d.y - JUMP_SCALE * d.jumpVel && r.image == JumpImage
      && r.stepIndex == d.stepIndex
      && (r.jumping <==> d.jumpVel - GRAVITY >= -JUMP_VEL)
    // a jump starts only on K_UP with the rectangle exactly at ground height
    ensures r.jumping && !d.jumping ==> keys.up && d.y == Y_POS
    ensures !d.jumping && keys.up && d.y == Y_POS ==>
      r.jumping && !r.running && r.jumpVel == d.jumpVel
    // on the take-off tick neither `run`, `jump` nor `duck` is called (a
    // reachable dinosaur at ground height is never ducking): the rectangle,
    // step counter and image stay as they were
    ensures !d.jumping && keys.up && d.y == Y_POS && !d.ducking ==>
      r.y == d.y && r.stepIndex == d.stepIndex && r.image == d.image
    ensures !d.jumping && !(keys.up && d.y == Y_POS) && keys.down ==>
      r.ducking && !r.running && !r.jumping && r.y == Y_POS_DUCK && r.image.DuckImage?
    ensures !d.jumping && !(keys.up && d.y == Y_POS) && !keys.down ==>
      r.running && !r.ducking && !r.jumping && r.y == Y_POS && r.image.RunImage?
    ensures !d.jumping ==> r.jumpVel == d.jumpVel
    // `run` and `duck` show frame stepIndex / STEPS_PER_FRAME of the counter
    // as it was on entry, then count one step, wrapping at STEP_CYCLE; a
    // pose that calls neither leaves the counter alone
    ensures r.running ==>
      r.image == RunImage(d.stepIndex / STEPS_PER_FRAME) && r.stepIndex == (d.stepIndex + 1) % STEP_CYCLE
    ensures !r.running && r.ducking ==>
      r.image == DuckImage(d.stepIndex / STEPS_PER_FRAME) && r.stepIndex == (d.stepIndex + 1) % STEP_CYCLE
    ensures !r.running && !r.ducking ==> r.stepIndex == d.stepIndex
  {
    var posed :=
      if d.jumping then Jump(d)
      else if keys.up && d.y == Y_POS then d.(jumping := true, running := false)
      else if keys.down then d.(ducking := true, running := false)
      else d.(running := true, ducking := false);
    var moved :=
      if posed.running then Run(posed)
      else if posed.ducking then Duck(posed)
      else posed;
    if moved.stepIndex >= STEP_CYCLE then moved.(stepIndex := 0) else moved
  }

  /** Vertical velocity after k calls of `jump` within one jump. */
  function ArcVel(k: nat): real {
    JUMP_VEL - GRAVITY * (k as real)
  }

  /** Height gained over the first k calls of `jump` within one jump. */
  function ArcRise(k: nat): real {
    if k == 0 then 0.0 else ArcRise(k - 1) + JUMP_SCALE * ArcVel(k - 1)
  }

  /**
   * The states `update` can reach from `New`: the pose flags exclude each
   * other, running and ducking pin the rectangle to their height, the step
   * counter stays in 0..9, and the jump velocity is the one for some point
   * of the arc (JUMP_VEL when not jumping), with the height that matches.
   * The one state with no flag set is the tick a jump ends on, when the
   * rectangle is where the arc left it.
   */
  ghost predicate Reachable(d: Dino) {
    && d.stepIndex < STEP_CYCLE
    && !(d.running && d.ducking)
    && (d.jumping ==> !d.running && !d.ducking)
    && (d.running ==> d.y == Y_POS)
    && (d.ducking ==> d.y == Y_POS_DUCK)
    && (!d.jumping ==> d.jumpVel == JUMP_VEL)
    && (!d.jumping && !d.running && !d.ducking ==> d.y == Y_POS - ArcRise(JUMP_CALLS))
    && exists k: nat :: k < JUMP_CALLS && d.jumpVel == ArcVel(k) && (d.jumping ==> d.y == Y_POS - ArcRise(k))
  }

  /** The dinosaur after one `update` per entry of `keys`, in order. */
  function UpdateAll(d: Dino, keys: seq<Keys>): (r: Dino)
    requires d.stepIndex < STEP_CYCLE
    ensures r.stepIndex < STEP_CYCLE
    decreases |keys|
  {
    if |keys| == 0 then d else Update(UpdateAll(d, keys[..|keys| - 1]), keys[|keys| - 1])
  }

  /** In the air, k calls of `jump` into a jump. */
  predicate InArc(d: Dino, k: nat) {
    && d.jumping && !d.running && !d.ducking
    && d.stepIndex < STEP_CYCLE
    && d.jumpVel == ArcVel(k)
    && d.y == Y_POS - ArcRise(k)
  }

  /** The tick a jump ends on: no flag set, velocity reset, at the arc's last height. */
  predicate Landed(d: Dino) {
    && !d.jumping && !d.running && !d.ducking
    && d.stepIndex < STEP_CYCLE
    && d.jumpVel == JUMP_VEL
    && d.y == Y_POS - ArcRise(JUMP_CALLS)
  }

  /**
   * One `update` in the air moves one step along the arc whatever the keys:
   * the jump goes on after fewer than JUMP_CALLS calls of `jump` and ends
   * exactly at the JUMP_CALLS-th, when the velocity first drops below
   * -JUMP_VEL and is reset to JUMP_VEL.
   */
  lemma ArcStep(d: Dino, k: nat, keys: Keys)
    requires InArc(d, k) && k < JUMP_CALLS
    ensures k + 1 < JUMP_CALLS ==> InArc(Update(d, keys), k + 1)
    ensures k + 1 == JUMP_CALLS ==> Landed(Update(d, keys))
  {
  }

  /** `update` keeps a reachable dinosaur reachable. */
  lemma UpdatePreservesReachable(d: Dino, keys: Keys)
    requires Reachable(d)
    ensures Reachable(Update(d, keys))
  {
    var r := Update(d, keys);
    assert ArcVel(0) == JUMP_VEL && ArcRise(0) == 0.0;
    if d.jumping {
      var k: nat :| k < JUMP_CALLS && d.jumpVel == ArcVel(k) && d.y == Y_POS - ArcRise(k);
      ArcStep(d, k, keys);
      if k + 1 < JUMP_CALLS {
        assert r.jumpVel == ArcVel(k + 1) && r.y == Y_POS - ArcRise(k + 1);
      } else {
        assert r.jumpVel == ArcVel(0);
      }
    } else {
      assert r.jumpVel == ArcVel(0);
    }
  }

  /** A reachable dinosaur shows at most one pose, and its velocity stays within [-JUMP_VEL, JUMP_VEL]. */
  lemma ReachableBounds(d: Dino)
    requires Reachable(d)
    ensures -JUMP_VEL <= d.jumpVel <= JUMP_VEL
    ensures !(d.running && d.jumping) && !(d.running && d.ducking) && !(d.jumping && d.ducking)
    ensures (d.stepIndex / STEPS_PER_FRAME) in {0, 1}
  {
  }

  /** While a jump is under way, `update` does not look at the keys. */
  lemma JumpIgnoresKeys(d: Dino, a: Keys, b: Keys)
    requires d.stepIndex < STEP_CYCLE
    requires d.jumping
    ensures Update(d, a) == Update(d, b)
  {
  }

  /** A ducking dinosaur cannot start a jump: it is not at ground height. */
  lemma NoJumpFromDuck(d: Dino, keys: Keys)
    requires Reachable(d) && d.ducking
    ensures !Update(d, keys).jumping
  {
  }

  /** The k-th prefix of a jump started on the ground is k calls into the arc. */
  lemma {:induction false} ArcProgress(d: Dino, keys: seq<Keys>, n: nat)
    requires InArc(d, 0)
    requires n <= |keys| && n < JUMP_CALLS
    ensures InArc(UpdateAll(d, keys[..n]), n)
  {
    if n > 0 {
      ArcProgress(d, keys, n - 1);
      assert keys[..n][..n - 1] == keys[..n - 1];
      ArcStep(UpdateAll(d, keys[..n - 1]), n - 1, keys[n - 1]);
    }
  }

  /**
   * A jump started on the ground stays in the air for exactly JUMP_CALLS
   * further updates, whatever keys are pressed meanwhile, and ends with the
   * velocity reset to JUMP_VEL.
   */
  lemma JumpDuration(d: Dino, keys: seq<Keys>)
    requires InArc(d, 0)
    requires |keys| == JUMP_CALLS
    ensures forall n :: 0 <= n < JUMP_CALLS ==> UpdateAll(d, keys[..n]).jumping
    ensures Landed(UpdateAll(d, keys))
  {
    forall n | 0 <= n < JUMP_CALLS
      ensures UpdateAll(d, keys[..n]).jumping
    {
      ArcProgress(d, keys, n);
    }
    ArcProgress(d, keys, JUMP_CALLS - 1);
    assert keys[..JUMP_CALLS][..JUMP_CALLS - 1] == keys[..JUMP_CALLS - 1];
    assert keys[..JUMP_CALLS] == keys;
    ArcStep(UpdateAll(d, keys[..JUMP_CALLS - 1]), JUMP_CALLS - 1, keys[JUMP_CALLS - 1]);
  }

  /** Closed form of the height gained: k * (35.6 - 1.6 k). */
  lemma {:induction false} ArcRiseClosedForm(k: nat)
    ensures ArcRise(k) == (k as real) * (35.6 - 1.6 * (k as real))
  {
    if k > 0 {
      ArcRiseClosedForm(k - 1);
      var j := (k - 1) as real;
      assert ArcRise(k) == j * (35.6 - 1.6 * j) + 4.0 * (8.5 - 0.8 * j);
      assert (k as real) == j + 1.0;
      assert (j + 1.0) * (35.6 - 1.6 * (j + 1.0)) == j * (35.6 - 1.6 * j) + 4.0 * (8.5 - 0.8 * j);
    }
  }

  /**
   * The whole arc stays above the ground and below a peak of 198 pixels,
   * reached after 11 calls of `jump`; the jump ends 8.8 pixels above the
   * ground, not on it.
   */
  lemma ArcHeights(k: nat)
    requires 1 <= k <= JUMP_CALLS
    ensures 0.0 < ArcRise(k) <= ArcRise(11) == 198.0
    ensures ArcRise(JUMP_CALLS) == 8.8
  {
  }

  /**
   * The dinosaur cannot jump again on the tick after a jump ends: the arc
   * left it above the ground, so `update` runs or ducks, and that pins it
   * back to the ground or the ducking height.
   */
  lemma LandingReturnsToGround(d: Dino, keys: Keys)
    requires Landed(d)
    ensures var r := Update(d, keys);
      && !r.jumping
      && (r.running ==> r.y == Y_POS)
      && (!r.running ==> r.ducking && r.y == Y_POS_DUCK)
  {
    ArcHeights(JUMP_CALLS);
  }

  /**
   * A full jump from the ground: K_UP on the first tick starts it while the
   * dinosaur stays at ground height, it is above the ground for the next
   * JUMP_CALLS ticks whatever keys are pressed (the last of them the
   * landing tick), and one tick later it is back at the ground or ducking
   * height.
   */
  lemma JumpCycle(d: Dino, keys: seq<Keys>)
    requires Reachable(d) && !d.jumping && d.y == Y_POS
    requires |keys| == JUMP_CALLS + 2 && keys[0].up
    ensures UpdateAll(d, keys[..1]).y == Y_POS
    ensures forall n :: 1 <= n <= JUMP_CALLS ==> UpdateAll(d, keys[..n]).jumping
    ensures forall n :: 2 <= n <= JUMP_CALLS + 1 ==> UpdateAll(d, keys[..n]).y < Y_POS
    ensures Landed(UpdateAll(d, keys[..JUMP_CALLS + 1]))
    ensures var e := UpdateAll(d, keys);
      (e.running && e.y == Y_POS) || (e.ducking && e.y == Y_POS_DUCK)
  {
    forall n | 1 <= n <= JUMP_CALLS + 1
      ensures n <= JUMP_CALLS ==> UpdateAll(d, keys[..n]).jumping
      ensures n >= 2 ==> UpdateAll(d, keys[..n]).y < Y_POS
    {
      CycleStage(d, keys, n);
    }
    CycleStage(d, keys, JUMP_CALLS + 1);
    assert keys[..JUMP_CALLS + 2] == keys;
    assert keys[..JUMP_CALLS + 2][..JUMP_CALLS + 1] == keys[..JUMP_CALLS + 1];
    LandingReturnsToGround(UpdateAll(d, keys[..JUMP_CALLS + 1]), keys[JUMP_CALLS + 1]);
  }

  /** Where the dinosaur is after the first n ticks of `JumpCycle`. */
  lemma CycleStage(d: Dino, keys: seq<Keys>, n: nat)
    requires Reachable(d) && !d.jumping && d.y == Y_POS
    requires |keys| == JUMP_CALLS + 2 && keys[0].up
    requires 1 <= n <= JUMP_CALLS + 1
    ensures n <= JUMP_CALLS ==> UpdateAll(d, keys[..n]).jumping
    ensures n >= 2 ==> UpdateAll(d, keys[..n]).y < Y_POS
    ensures n == JUMP_CALLS + 1 ==> Landed(UpdateAll(d, keys[..n]))
  {
    var start := Update(d, keys[0]);
    assert ArcVel(0) == JUMP_VEL && ArcRise(0) == 0.0;
    assert InArc(start, 0);
    var rest := keys[1..JUMP_CALLS + 1];
    UpdateAllShift(d, keys, n - 1);
    assert rest[..n - 1] == keys[1..][..n - 1];
    if n - 1 < JUMP_CALLS {
      ArcProgress(start, rest, n - 1);
    } else {
      JumpDuration(start, rest);
      assert rest[..JUMP_CALLS] == rest;
    }
    if n >= 2 {
      ArcHeights(n - 1);
    }
  }

  /** Updating with keys[..n+1] is the first update followed by keys[1..n+1]. */
  lemma {:induction false} UpdateAllShift(d: Dino, keys: seq<Keys>, n: nat)
    requires d.stepIndex < STEP_CYCLE
    requires n + 1 <= |keys|
    ensures UpdateAll(d, keys[..n + 1]) == UpdateAll(Update(d, keys[0]), keys[1..][..n])
  {
    if n == 0 {
      assert keys[..1][..0] == [];
    } else {
      UpdateAllShift(d, keys, n - 1);
      assert keys[..n + 1][..n] == keys[..n];
      assert keys[1..][..n][..n - 1] == keys[1..][..n - 1];
    }
  }
}

=== FILE: generation.dfy ===
/**
 * One generation of training (the body of DinoGame.eval_genomes): every
 * live dinosaur is steered by its network against the one shared obstacle
 * stream, earns a reward each tick it is alive, and is dropped, together
 * with its network and genome, on the tick it collides.
 */
module Generation {
  import opened Sprites
  import opened Selection
  import opened Dinosaur
  import opened Obstacles
  import opened Perception
  import opened Collision
  import opened World

  /** Fitness every live genome gains per tick. */
  const SURVIVAL_REWARD: real := 0.1
  /** Fitness a genome loses on the tick its dinosaur collides. */
  const COLLISION_PENALTY: real := 1.0
  /** A network output above this presses the key. */
  const ACTIVATION_THRESHOLD: real := 0.5

  /** A network's two outputs (up, down) for the five inputs. */
  type Activate<!N> = (N, seq<real>) -> (real, real)

  /**
   * The state of a generation: the shared world, the three parallel lists
   * of live dinosaurs, their networks and their genomes, and the fitness of
   * every genome of the generation (indexed by genome, alive or not).
   */
  datatype Generation<N> = Generation(
    world: WorldState,
    dinos: seq<Dino>,
    nets: seq<N>,
    genomes: seq<nat>,
    fitness: seq<real>)

  /** A generation run: the final state and the number of ticks it took. */
  datatype Outcome<N> = Outcome(final: Generation<N>, ticks: nat)

  /**
   * The parallel lists have one entry per live dinosaur, each genome is
   * live at most once (NEAT hands over distinct genome objects) and has a
   * fitness, and every dinosaur's step counter is one `update` can index with.
   */
  predicate Aligned<N>(g: Generation<N>) {
    && |g.nets| == |g.dinos|
    && |g.genomes| == |g.dinos|
    && Distinct(g.genomes)
    && (forall i :: 0 <= i < |g.genomes| ==> g.genomes[i] < |g.fitness|)
    && (forall i :: 0 <= i < |g.dinos| ==> g.dinos[i].stepIndex < STEP_CYCLE)
  }

  /** `eval_genomes` set-up: one fresh dinosaur per network, every fitness 0, a fresh world. */
  function Begin<N>(nets: seq<N>): (g: Generation<N>)
    ensures Aligned(g)
    ensures |g.dinos| == |nets| && g.nets == nets && |g.fitness| == |nets|
    ensures forall i :: 0 <= i < |nets| ==> g.genomes[i] == i && g.fitness[i] == 0.0 && g.dinos[i] == New()
    ensures g.world == Start()
  {
    Generation(
      Start(),
      seq(|nets|, _ => New()),
      nets,
      seq(|nets|, i => i),
      seq(|nets|, _ => 0.0))
  }

  /** The keys a network presses: each output above the threshold. */
  function Decide<N>(activate: Activate<N>, net: N, features: seq<real>): (k: Keys)
    ensures k.up <==> activate(net, features).0 > ACTIVATION_THRESHOLD
    ensures k.down <==> activate(net, features).1 > ACTIVATION_THRESHOLD
  {
    var out := activate(net, features);
    Keys(out.0 > ACTIVATION_THRESHOLD, out.1 > ACTIVATION_THRESHOLD)
  }

  /** One dinosaur's move: perceive the world, let its network decide, update. */
  function Move<N>(w: WorldState, activate: Activate<N>, net: N, d: Dino): Dino
    requires d.stepIndex < STEP_CYCLE
  {
    Update(d, Decide(activate, net, Features(w.obstacles, d, w.speed)))
  }

  /** Every live dinosaur's move, in list order. */
  function MoveAll<N>(w: WorldState, activate: Activate<N>, dinos: seq<Dino>, nets: seq<N>): (r: seq<Dino>)
    requires |nets| == |dinos|
    requires forall i :: 0 <= i < |dinos| ==> dinos[i].stepIndex < STEP_CYCLE
    ensures |r| == |dinos|
    ensures forall i :: 0 <= i < |r| ==> r[i] == Move(w, activate, nets[i], dinos[i]) && r[i].stepIndex < STEP_CYCLE
  {
    seq(|dinos|, i requires 0 <= i < |dinos| => Move(w, activate, nets[i], dinos[i]))
  }

  /** For each moved dinosaur, whether it is clear of every obstacle. */
  function Clear(overlap: Overlap, moved: seq<Dino>, obstacles: seq<Obstacle>): (r: seq<bool>)
    ensures |r| == |moved|
    ensures forall i :: 0 <= i < |r| ==> (r[i] <==> !Collides(overlap, moved[i], obstacles))
  {
    seq(|moved|, i requires 0 <= i < |moved| => !Collides(overlap, moved[i], obstacles))
  }

  /**
   * Fitness bookkeeping of one tick: every listed genome gains the survival
   * reward, and those whose dinosaur collided also lose the penalty; no
   * other genome's fitness changes.
   */
  function Reward(fitness: seq<real>, genomes: seq<nat>, clear: seq<bool>): (r: seq<real>)
    requires |clear| == |genomes| && Distinct(genomes)
    requires forall i :: 0 <= i < |genomes| ==> genomes[i] < |fitness|
    ensures |r| == |fitness|
    ensures forall i :: 0 <= i < |genomes| ==>
      r[genomes[i]] == fitness[genomes[i]] + SURVIVAL_REWARD - (if clear[i] then 0.0 else COLLISION_PENALTY)
    ensures forall x :: 0 <= x < |fitness| && x !in genomes ==> r[x] == fitness[x]
    decreases |genomes|
  {
    if |genomes| == 0 then fitness
    else
      var x := genomes[0];
      var rewarded := fitness[x] + SURVIVAL_REWARD;
      var settled := if clear[0] then rewarded else rewarded - COLLISION_PENALTY;
      assert forall i :: 1 <= i < |genomes| ==> genomes[i] != x;
      Reward(fitness[x := settled], genomes[1..], clear[1..])
  }

  /**
   * One tick of `eval_genomes`: obstacles spawn and scroll, every live
   * dinosaur moves and is rewarded, the ones that collide are penalised and
   * dropped from all three lists at once, and the clock advances.
   */
  function Tick<N>(g: Generation<N>, roll: SpawnRoll, activate: Activate<N>, overlap: Overlap, measure: Measure): (r: Generation<N>)
    requires Aligned(g)
    ensures Aligned(r)
    ensures |r.dinos| <= |g.dinos| && |r.fitness| == |g.fitness|
    ensures r.world.speed == g.world.speed + SPEED_INCREMENT
    ensures r.world.points == g.world.points + POINT_INCREMENT
    ensures WithinCap(g.world) ==> WithinCap(r.world)
    ensures r.world.obstacles == MoveObstacles(g.world, roll, measure).obstacles
  {
    var w := MoveObstacles(g.world, roll, measure);
    var moved := MoveAll(w, activate, g.dinos, g.nets);
    var clear := Clear(overlap, moved, w.obstacles);
    CullAligned(AdvanceClock(w), moved, g.nets, g.genomes, g.fitness, clear);
    Generation(
      AdvanceClock(w),
      Select(moved, clear),
      Select(g.nets, clear),
      Select<nat>(g.genomes, clear),
      Reward(g.fitness, g.genomes, clear))
  }

  /** Dropping the same entries from all three lists keeps them aligned. */
  lemma CullAligned<N>(w: WorldState, moved: seq<Dino>, nets: seq<N>, genomes: seq<nat>, fitness: seq<real>, clear: seq<bool>)
    requires |nets| == |moved| && |genomes| == |moved| && |clear| == |moved|
    requires Distinct(genomes)
    requires forall i :: 0 <= i < |genomes| ==> genomes[i] < |fitness|
    requires forall i :: 0 <= i < |moved| ==> moved[i].stepIndex < STEP_CYCLE
    ensures Aligned(Generation(w, Select(moved, clear), Select(nets, clear), Select<nat>(genomes, clear), Reward(fitness, genomes, clear)))
  {
    CullKeepsGenomes(fitness, genomes, clear);
    CullKeepsStepIndex(moved, clear);
    AlignedOf(w, Select(moved, clear), Select(nets, clear), Select<nat>(genomes, clear), Reward(fitness, genomes, clear));
  }

  /** Aligned, stated on the parts of a generation. */
  lemma AlignedOf<N>(w: WorldState, dinos: seq<Dino>, nets: seq<N>, genomes: seq<nat>, fitness: seq<real>)
    requires |nets| == |dinos| && |genomes| == |dinos| && Distinct(genomes)
    requires forall i :: 0 <= i < |genomes| ==> genomes[i] < |fitness|
    requires forall i :: 0 <= i < |dinos| ==> dinos[i].stepIndex < STEP_CYCLE
    ensures Aligned(Generation(w, dinos, nets, genomes, fitness))
  {
  }

  /**
   * Fitness over one tick: a genome that stays live gained exactly the
   * reward, one dropped on this tick gained the reward and lost the
   * penalty, and the fitness of a genome already dropped is frozen.
   */
  lemma TickBookkeeping<N>(g: Generation<N>, roll: SpawnRoll, activate: Activate<N>, overlap: Overlap, measure: Measure)
    requires Aligned(g)
    ensures var r := Tick(g, roll, activate, overlap, measure);
      && (forall x :: x in r.genomes ==> x in g.genomes && r.fitness[x] == g.fitness[x] + SURVIVAL_REWARD)
      && (forall x :: x in g.genomes && x !in r.genomes ==>
            r.fitness[x] == g.fitness[x] + SURVIVAL_REWARD - COLLISION_PENALTY)
      && (forall x :: 0 <= x < |g.fitness| && x !in g.genomes ==> r.fitness[x] == g.fitness[x])
  {
    var w := MoveObstacles(g.world, roll, measure);
    var moved := MoveAll(w, activate, g.dinos, g.nets);
    var clear := Clear(overlap, moved, w.obstacles);
    CullBookkeeping(g.fitness, g.genomes, clear);
  }

  /** The genomes that stay live are still distinct genomes that have a fitness. */
  lemma CullKeepsGenomes(fitness: seq<real>, genomes: seq<nat>, clear: seq<bool>)
    requires |clear| == |genomes| && Distinct(genomes)
    requires forall i :: 0 <= i < |genomes| ==> genomes[i] < |fitness|
    ensures Distinct(Select<nat>(genomes, clear))
    ensures forall j :: 0 <= j < |Select<nat>(genomes, clear)| ==> Select<nat>(genomes, clear)[j] < |fitness|
  {
    SelectDistinct(genomes, clear);
  }

  /**
   * The genomes that stay live gained exactly the reward; those dropped
   * gained the reward and lost the penalty.
   */
  lemma CullBookkeeping(fitness: seq<real>, genomes: seq<nat>, clear: seq<bool>)
    requires |clear| == |genomes| && Distinct(genomes)
    requires forall i :: 0 <= i < |genomes| ==> genomes[i] < |fitness|
    ensures forall x :: x in Select<nat>(genomes, clear) ==>
      x in genomes && Reward(fitness, genomes, clear)[x] == fitness[x] + SURVIVAL_REWARD
    ensures forall x :: x in genomes && x !in Select<nat>(genomes, clear) ==>
      Reward(fitness, genomes, clear)[x] == fitness[x] + SURVIVAL_REWARD - COLLISION_PENALTY
  {
    SelectDistinct(genomes, clear);
    forall x | x in genomes
      ensures x in Select<nat>(genomes, clear) ==> Reward(fitness, genomes, clear)[x] == fitness[x] + SURVIVAL_REWARD
      ensures x !in Select<nat>(genomes, clear) ==>
        Reward(fitness, genomes, clear)[x] == fitness[x] + SURVIVAL_REWARD - COLLISION_PENALTY
    {
      var i :| 0 <= i < |genomes| && genomes[i] == x;
      RewardAt(fitness, genomes, clear, i);
    }
  }

  /** Reward's effect on the i-th listed genome. */
  lemma RewardAt(fitness: seq<real>, genomes: seq<nat>, clear: seq<bool>, i: nat)
    requires |clear| == |genomes| && Distinct(genomes)
    requires forall i :: 0 <= i < |genomes| ==> genomes[i] < |fitness|
    requires i < |genomes|
    ensures Reward(fitness, genomes, clear)[genomes[i]]
      == fitness[genomes[i]] + SURVIVAL_REWARD - (if clear[i] then 0.0 else COLLISION_PENALTY)
  {
  }

  /** The dinosaurs that stay live keep a step counter `update` can index with. */
  lemma CullKeepsStepIndex(moved: seq<Dino>, clear: seq<bool>)
    requires |clear| == |moved|
    requires forall i :: 0 <= i < |moved| ==> moved[i].stepIndex < STEP_CYCLE
    ensures forall j :: 0 <= j < Count(clear) ==> Select(moved, clear)[j].stepIndex < STEP_CYCLE
  {
  }

  /**
   * A dinosaur stays live exactly when, after its move, it overlaps no
   * obstacle; the survivors keep their order, and each surviving
   * dinosaur, network and genome still came from one and the same entry.
   */
  lemma TickCullsExactlyColliders<N>(g: Generation<N>, roll: SpawnRoll, activate: Activate<N>, overlap: Overlap, measure: Measure)
    requires Aligned(g)
    ensures var r := Tick(g, roll, activate, overlap, measure);
      var w := MoveObstacles(g.world, roll, measure);
      var moved := MoveAll(w, activate, g.dinos, g.nets);
      var kept := Kept(Clear(overlap, moved, w.obstacles));
      && (forall i :: 0 <= i < |g.genomes| ==>
            (g.genomes[i] in r.genomes <==> !Collides(overlap, moved[i], w.obstacles)))
      && |kept| == |r.dinos|
      && (forall j, k :: 0 <= j < k < |kept| ==> kept[j] < kept[k])
      && (forall j :: 0 <= j < |kept| ==>
            && kept[j] < |g.dinos|
            && r.dinos[j] == Move(w, activate, g.nets[kept[j]], g.dinos[kept[j]])
            && r.nets[j] == g.nets[kept[j]]
            && r.genomes[j] == g.genomes[kept[j]])
  {
    var w := MoveObstacles(g.world, roll, measure);
    var moved := MoveAll(w, activate, g.dinos, g.nets);
    var clear := Clear(overlap, moved, w.obstacles);
    SelectDistinct(g.genomes, clear);
    forall j | 0 <= j < Count(clear)
      ensures Select(moved, clear)[j] == moved[Kept(clear)[j]]
      ensures Select(g.nets, clear)[j] == g.nets[Kept(clear)[j]]
      ensures Select<nat>(g.genomes, clear)[j] == g.genomes[Kept(clear)[j]]
    {
      SelectAt(moved, clear, j);
      SelectAt(g.nets, clear, j);
      SelectAt(g.genomes, clear, j);
    }
  }

  /** A tick keeps every live dinosaur in a state `update` can reach. */
  lemma TickKeepsDinosReachable<N>(g: Generation<N>, roll: SpawnRoll, activate: Activate<N>, overlap: Overlap, measure: Measure)
    requires Aligned(g)
    requires forall i :: 0 <= i < |g.dinos| ==> Reachable(g.dinos[i])
    ensures forall j :: 0 <= j < |Tick(g, roll, activate, overlap, measure).dinos| ==>
      Reachable(Tick(g, roll, activate, overlap, measure).dinos[j])
  {
    var w := MoveObstacles(g.world, roll, measure);
    var moved := MoveAll(w, activate, g.dinos, g.nets);
    var clear := Clear(overlap, moved, w.obstacles);
    forall j | 0 <= j < Count(clear)
      ensures Reachable(Select(moved, clear)[j])
    {
      SelectAt(moved, clear, j);
      var i := Kept(clear)[j];
      UpdatePreservesReachable(g.dinos[i], Decide(activate, g.nets[i], Features(w.obstacles, g.dinos[i], w.speed)));
    }
  }

  /**
   * The shared world evolves the same whoever is playing: its next state
   * does not depend on the dinosaurs, networks or fitness.
   */
  lemma WorldIndependentOfAgents<N>(g: Generation<N>, h: Generation<N>, roll: SpawnRoll, activate: Activate<N>, overlap: Overlap, measure: Measure)
    requires Aligned(g) && Aligned(h) && g.world == h.world
    ensures Tick(g, roll, activate, overlap, measure).world == Tick(h, roll, activate, overlap, measure).world
  {
  }

  /** Fitness earned by surviving t ticks. */
  function Earned(t: nat): real {
    (t as real) * SURVIVAL_REWARD
  }

  /** A step that accepts every aligned generation and keeps it aligned. */
  ghost predicate KeepsAligned<N(!new)>(step: (Generation<N>, SpawnRoll) --> Generation<N>) {
    forall h, roll :: Aligned(h) ==> step.requires(h, roll) && Aligned(step(h, roll))
  }

  /** `Tick` with the networks, masks and sizes fixed, as a step on generations. */
  function TickStep<N(!new)>(activate: Activate<N>, overlap: Overlap, measure: Measure): (step: (Generation<N>, SpawnRoll) --> Generation<N>)
    ensures KeepsAligned(step)
  {
    (h, roll) requires Aligned(h) => Tick(h, roll, activate, overlap, measure)
  }

  /**
   * The states a loop of steps passes through when fed the spawn rolls in
   * order and never stopped: the start and the state after each step.
   */
  ghost function Trace<N(!new)>(g: Generation<N>, rolls: seq<SpawnRoll>, step: (Generation<N>, SpawnRoll) --> Generation<N>): (s: seq<Generation<N>>)
    requires Aligned(g) && KeepsAligned(step)
    ensures |s| == |rolls| + 1 && s[0] == g
    decreases |rolls|
  {
    if |rolls| == 0 then [g]
    else [g] + Trace(step(g, rolls[0]), rolls[1..], step)
  }

  /** Each state of a trace is one step, with the next roll, after the one before. */
  lemma {:induction false} TraceSteps<N(!new)>(g: Generation<N>, rolls: seq<SpawnRoll>, step: (Generation<N>, SpawnRoll) --> Generation<N>)
    requires Aligned(g) && KeepsAligned(step)
    ensures forall k :: 0 <= k <= |rolls| ==> Aligned(Trace(g, rolls, step)[k])
    ensures forall k :: 0 <= k < |rolls| ==>
      Aligned(Trace(g, rolls, step)[k]) && Trace(g, rolls, step)[k + 1] == step(Trace(g, rolls, step)[k], rolls[k])
    decreases |rolls|
  {
    if |rolls| > 0 {
      var next := step(g, rolls[0]);
      TraceSteps(next, rolls[1..], step);
      var s := Trace(g, rolls, step);
      var rest := Trace(next, rolls[1..], step);
      assert s == [g] + rest;
      forall k | 0 <= k < |rolls|
        ensures s[k + 1] == step(s[k], rolls[k])
      {
        if k == 0 {
          assert s[1] == rest[0];
        } else {
          var j := k - 1;
          assert rest[j + 1] == step(rest[j], rolls[1..][j]);
          assert s[k] == rest[j] && s[k + 1] == rest[j + 1] && rolls[k] == rolls[1..][j];
        }
      }
    }
  }

  /**
   * The loop of `eval_genomes`, one spawn roll per tick: run ticks while
   * any dinosaur is live. It stops before the rolls run out only when none
   * is left, and the live count never grows.
   */
  function Evaluate<N>(g: Generation<N>, rolls: seq<SpawnRoll>, activate: Activate<N>, overlap: Overlap, measure: Measure): (r: Outcome<N>)
    requires Aligned(g)
    ensures Aligned(r.final)
    ensures r.ticks <= |rolls|
    ensures |g.dinos| == 0 ==> r.ticks == 0 && r.final == g
    ensures r.ticks < |rolls| ==> |r.final.dinos| == 0
    ensures |r.final.dinos| <= |g.dinos| && |r.final.fitness| == |g.fitness|
    decreases |rolls|
  {
    if |g.dinos| == 0 || |rolls| == 0 then
      Outcome(g, 0)
    else
      var rest := Evaluate(Tick(g, rolls[0], activate, overlap, measure), rolls[1..], activate, overlap, measure);
      Outcome(rest.final, rest.ticks + 1)
  }

  /**
   * The loop of `eval_genomes` over any step: run steps while a dinosaur
   * is live and rolls are left.
   */
  ghost function WhileLive<N(!new)>(g: Generation<N>, rolls: seq<SpawnRoll>, step: (Generation<N>, SpawnRoll) --> Generation<N>): (r: Outcome<N>)
    requires Aligned(g) && KeepsAligned(step)
    decreases |rolls|
  {
    if |g.dinos| == 0 || |rolls| == 0 then Outcome(g, 0)
    else
      var rest := WhileLive(step(g, rolls[0]), rolls[1..], step);
      Outcome(rest.final, rest.ticks + 1)
  }

  /** `Evaluate` is that loop with `Tick` as its step. */
  lemma {:induction false} EvaluateIsWhileLive<N(!new)>(g: Generation<N>, rolls: seq<SpawnRoll>, activate: Activate<N>, overlap: Overlap, measure: Measure)
    requires Aligned(g)
    ensures Evaluate(g, rolls, activate, overlap, measure) == WhileLive(g, rolls, TickStep(activate, overlap, measure))
    decreases |rolls|
  {
    if |g.dinos| > 0 && |rolls| > 0 {
      var next := Tick(g, rolls[0], activate, overlap, measure);
      assert TickStep(activate, overlap, measure)(g, rolls[0]) == next;
      EvaluateIsWhileLive(next, rolls[1..], activate, overlap, measure);
    }
  }

  /**
   * A loop of steps follows the trace and runs a step exactly while a
   * dinosaur is live: it ends on the state after its last step, and every
   * step it ran started with a live dinosaur.
   */
  lemma {:induction false} WhileLiveFollowsTrace<N(!new)>(g: Generation<N>, rolls: seq<SpawnRoll>, step: (Generation<N>, SpawnRoll) --> Generation<N>)
    requires Aligned(g) && KeepsAligned(step)
    ensures WhileLive(g, rolls, step).ticks <= |rolls|
    ensures WhileLive(g, rolls, step).final == Trace(g, rolls, step)[WhileLive(g, rolls, step).ticks]
    ensures forall k :: 0 <= k < WhileLive(g, rolls, step).ticks ==> |Trace(g, rolls, step)[k].dinos| > 0
    decreases |rolls|
  {
    if |g.dinos| > 0 && |rolls| > 0 {
      var next := step(g, rolls[0]);
      WhileLiveFollowsTrace(next, rolls[1..], step);
      var rest := WhileLive(next, rolls[1..], step);
      var s := Trace(g, rolls, step);
      var later := Trace(next, rolls[1..], step);
      assert s == [g] + later;
      forall k | 0 < k < rest.ticks + 1
        ensures |s[k].dinos| > 0
      {
        assert s[k] == later[k - 1];
      }
    }
  }

  /**
   * The loop of `eval_genomes` follows the trace of ticks and runs a tick
   * exactly while a dinosaur is live: it ends on the state after its last
   * tick, every tick it ran started with a live dinosaur, and (by
   * `Evaluate`) it stops before the rolls run out only when none is left.
   */
  lemma EvaluateFollowsTrace<N(!new)>(g: Generation<N>, rolls: seq<SpawnRoll>, activate: Activate<N>, overlap: Overlap, measure: Measure)
    requires Aligned(g)
    ensures Evaluate(g, rolls, activate, overlap, measure).final == Trace(g, rolls, TickStep(activate, overlap, measure))[Evaluate(g, rolls, activate, overlap, measure).ticks]
    ensures forall k :: 0 <= k < Evaluate(g, rolls, activate, overlap, measure).ticks ==> |Trace(g, rolls, TickStep(activate, overlap, measure))[k].dinos| > 0
  {
    EvaluateIsWhileLive(g, rolls, activate, overlap, measure);
    WhileLiveFollowsTrace(g, rolls, TickStep(activate, overlap, measure));
  }

  /** Over a run, speed and score grow by their increment once per tick. */
  lemma {:induction false} EvaluateClock<N>(g: Generation<N>, rolls: seq<SpawnRoll>, activate: Activate<N>, overlap: Overlap, measure: Measure)
    requires Aligned(g)
    ensures var r := Evaluate(g, rolls, activate, overlap, measure);
      && r.final.world.speed == g.world.speed + (r.ticks as real) * SPEED_INCREMENT
      && r.final.world.points == g.world.points + (r.ticks as real) * POINT_INCREMENT
    decreases |rolls|
  {
    if |g.dinos| > 0 && |rolls| > 0 {
      EvaluateClock(Tick(g, rolls[0], activate, overlap, measure), rolls[1..], activate, overlap, measure);
    }
  }

  /**
   * The fitness bookkeeping of one tick from `a` to `b`: a genome live in
   * `b` was live in `a` and gained the reward; one live in `a` but not in
   * `b` gained the reward and lost the penalty; any other keeps its fitness.
   */
  ghost predicate Booked<N>(a: Generation<N>, b: Generation<N>) {
    && |b.fitness| == |a.fitness|
    && (forall x :: 0 <= x < |a.fitness| && x in b.genomes ==>
          x in a.genomes && b.fitness[x] == a.fitness[x] + SURVIVAL_REWARD)
    && (forall x :: 0 <= x < |a.fitness| && x in a.genomes && x !in b.genomes ==>
          b.fitness[x] == a.fitness[x] + SURVIVAL_REWARD - COLLISION_PENALTY)
    && (forall x :: 0 <= x < |a.fitness| && x !in a.genomes ==> b.fitness[x] == a.fitness[x])
  }

  /** Every tick of the trace does the fitness bookkeeping of one tick. */
  lemma TraceBooked<N(!new)>(g: Generation<N>, rolls: seq<SpawnRoll>, activate: Activate<N>, overlap: Overlap, measure: Measure)
    requires Aligned(g)
    ensures forall k :: 0 <= k < |rolls| ==> Booked(Trace(g, rolls, TickStep(activate, overlap, measure))[k], Trace(g, rolls, TickStep(activate, overlap, measure))[k + 1])
  {
    var s := Trace(g, rolls, TickStep(activate, overlap, measure));
    TraceSteps(g, rolls, TickStep(activate, overlap, measure));
    forall k | 0 <= k < |s| - 1
      ensures Booked(s[k], s[k + 1])
    {
      TickBookkeeping(s[k], rolls[k], activate, overlap, measure);
    }
  }

  /** Genome x is live after k ticks of `s` and dropped on tick k + 1. */
  ghost predicate DroppedAt<N>(s: seq<Generation<N>>, k: nat, x: nat)
    requires k + 1 < |s|
  {
    x in s[k].genomes && x !in s[k + 1].genomes
  }

  /** Along booked ticks a genome once dropped never comes back. */
  lemma {:induction false} OnlyDrops<N>(s: seq<Generation<N>>, i: nat, j: nat, x: nat)
    requires forall k :: 0 <= k < |s| - 1 ==> Booked(s[k], s[k + 1])
    requires i <= j < |s| && x < |s[0].fitness|
    requires x in s[j].genomes
    ensures x in s[i].genomes
    decreases j - i
  {
    if i < j {
      OnlyDrops(s, i + 1, j, x);
      FitnessLength(s, i);
    }
  }

  /** Booked ticks keep the fitness list's length. */
  lemma {:induction false} FitnessLength<N>(s: seq<Generation<N>>, k: nat)
    requires forall k :: 0 <= k < |s| - 1 ==> Booked(s[k], s[k + 1])
    requires k < |s|
    ensures |s[k].fitness| == |s[0].fitness|
  {
    if k > 0 {
      FitnessLength(s, k - 1);
    }
  }

  /** Along booked ticks a genome is dropped on at most one tick. */
  lemma DroppedOnce<N>(s: seq<Generation<N>>, k: nat, m: nat, x: nat)
    requires forall k :: 0 <= k < |s| - 1 ==> Booked(s[k], s[k + 1])
    requires k + 1 < |s| && m + 1 < |s| && x < |s[0].fitness|
    requires DroppedAt(s, k, x) && DroppedAt(s, m, x)
    ensures k == m
  {
    if k < m {
      OnlyDrops(s, k + 1, m, x);
    } else if m < k {
      OnlyDrops(s, m + 1, k, x);
    }
  }

  /**
   * Fitness bookkeeping over the first t ticks of `s`: a genome live after
   * them was live at the start and earned the reward on each of the t
   * ticks; a genome live at the start but not after them was dropped on
   * some tick k + 1 <= t, earned the reward on ticks 1..k+1 and lost the
   * penalty once; genomes not live at the start kept their fitness.
   */
  ghost predicate Settled<N>(s: seq<Generation<N>>, t: nat)
    requires t < |s|
  {
    var first := s[0];
    var last := s[t];
    && |last.fitness| == |first.fitness|
    && (forall x :: 0 <= x < |first.fitness| && x in last.genomes ==>
          x in first.genomes && last.fitness[x] == first.fitness[x] + Earned(t))
    && (forall x :: 0 <= x < |first.fitness| && x in first.genomes && x !in last.genomes ==>
          exists k :: 0 <= k < t && DroppedAt(s, k, x)
            && last.fitness[x] == first.fitness[x] + Earned(k + 1) - COLLISION_PENALTY)
    && (forall x :: 0 <= x < |first.fitness| && x !in first.genomes ==> last.fitness[x] == first.fitness[x])
  }

  /** Booked ticks settle the fitness over every prefix. */
  lemma {:induction false} SettledAlong<N>(s: seq<Generation<N>>, t: nat)
    requires forall k :: 0 <= k < |s| - 1 ==> Booked(s[k], s[k + 1])
    requires t < |s|
    ensures Settled(s, t)
    decreases t
  {
    if t == 0 {
      assert Earned(0) == 0.0;
    } else {
      SettledAlong(s, t - 1);
      SettledExtend(s, t);
    }
  }

  /** Settled for t - 1 ticks and one more booked tick give settled for t. */
  lemma SettledExtend<N>(s: seq<Generation<N>>, t: nat)
    requires 0 < t < |s|
    requires Settled(s, t - 1) && Booked(s[t - 1], s[t])
    ensures Settled(s, t)
  {
    var first, prev, last := s[0], s[t - 1], s[t];
    assert Earned(t) == Earned(t - 1) + SURVIVAL_REWARD;
    forall x | 0 <= x < |first.fitness| && x in first.genomes && x !in last.genomes
      ensures exists k :: (0 <= k < t && DroppedAt(s, k, x)
        && last.fitness[x] == first.fitness[x] + Earned(k + 1) - COLLISION_PENALTY)
    {
      if x in prev.genomes {
        assert DroppedAt(s, t - 1, x);
      } else {
        var k :| 0 <= k < t - 1 && DroppedAt(s, k, x)
          && prev.fitness[x] == first.fitness[x] + Earned(k + 1) - COLLISION_PENALTY;
        assert DroppedAt(s, k, x);
      }
    }
  }

  /**
   * Fitness over a run: a genome live at the end earned the reward on every
   * tick; one dropped earned it on each tick up to and including the one it
   * collided on, which is the single tick of the trace that drops it, and
   * lost the penalty once; genomes not live at the start keep their fitness.
   */
  lemma EvaluateFitness<N(!new)>(g: Generation<N>, rolls: seq<SpawnRoll>, activate: Activate<N>, overlap: Overlap, measure: Measure)
    requires Aligned(g)
    ensures Evaluate(g, rolls, activate, overlap, measure).final == Trace(g, rolls, TickStep(activate, overlap, measure))[Evaluate(g, rolls, activate, overlap, measure).ticks]
    ensures Settled(Trace(g, rolls, TickStep(activate, overlap, measure)), Evaluate(g, rolls, activate, overlap, measure).ticks)
    ensures forall x, k, m :: 0 <= x < |g.fitness| && 0 <= k < m < |rolls| ==>
      !(DroppedAt(Trace(g, rolls, TickStep(activate, overlap, measure)), k, x) && DroppedAt(Trace(g, rolls, TickStep(activate, overlap, measure)), m, x))
  {
    var s := Trace(g, rolls, TickStep(activate, overlap, measure));
    EvaluateFollowsTrace(g, rolls, activate, overlap, measure);
    TraceBooked(g, rolls, activate, overlap, measure);
    SettledAlong(s, Evaluate(g, rolls, activate, overlap, measure).ticks);
    forall x, k, m | 0 <= x < |g.fitness| && 0 <= k < m < |rolls|
      ensures !(DroppedAt(s, k, x) && DroppedAt(s, m, x))
    {
      if DroppedAt(s, k, x) && DroppedAt(s, m, x) {
        DroppedOnce(s, k, m, x);
      }
    }
  }
}

=== FILE: human.dfy ===
/**
 * One player at the keyboard (DinoGame.reset and the loop of
 * DinoGame.human_play): the same world as in training, one dinosaur driven
 * by the keys, and the game over on the first collision.
 */
module HumanPlay {
  import opened Sprites
  import opened Dinosaur
  import opened Obstacles
  import opened Collision
  import opened World
  import Generation

  datatype Session = Session(player: Dino, world: WorldState)

  /** The session after a tick, and whether the player collided on it. */
  datatype Step = Step(session: Session, over: bool)

  /** `reset`: a fresh dinosaur in a fresh world. */
  function Begin(): (s: Session)
    ensures Reachable(s.player) && s.player.running && s.player.y == Y_POS
    ensures s.player == New() && s.player.x == X_POS
    ensures s.world.speed == INITIAL_GAME_SPEED && s.world.points == 0.0 && |s.world.obstacles| == 0
  {
    Session(New(), Start())
  }

  /**
   * One pass of the `human_play` loop: the player moves with the keys
   * first, then obstacles spawn and scroll, then the clock advances, and
   * the game is over when the moved player overlaps any moved obstacle.
   */
  function Tick(s: Session, keys: Keys, roll: SpawnRoll, overlap: Overlap, measure: Measure): (r: Step)
    requires s.player.stepIndex < STEP_CYCLE
    ensures r.session.player == Update(s.player, keys)
    ensures r.session.world.speed == s.world.speed + SPEED_INCREMENT
    ensures r.session.world.points == s.world.points + POINT_INCREMENT
    ensures WithinCap(s.world) ==> WithinCap(r.session.world)
    ensures forall o :: o in r.session.world.obstacles ==> !OffScreen(o)
    ensures r.session.world.obstacles == MoveObstacles(s.world, roll, measure).obstacles
    ensures r.over <==>
      (exists i :: 0 <= i < |r.session.world.obstacles| && Touches(overlap, r.session.player, r.session.world.obstacles[i]))
  {
    var player := Update(s.player, keys);
    var world := AdvanceClock(MoveObstacles(s.world, roll, measure));
    Step(Session(player, world), Collides(overlap, player, world.obstacles))
  }

  /**
   * Human play and training share the world: from the same world and the
   * same spawn roll, a human tick and a training tick leave the same speed,
   * score and obstacles, whoever is playing.
   */
  lemma SameWorldAsTraining<N>(
    s: Session, keys: Keys, g: Generation.Generation<N>, roll: SpawnRoll,
    activate: Generation.Activate<N>, overlap: Overlap, measure: Measure)
    requires s.player.stepIndex < STEP_CYCLE
    requires Generation.Aligned(g) && g.world == s.world
    ensures Tick(s, keys, roll, overlap, measure).session.world
      == Generation.Tick(g, roll, activate, overlap, measure).world
  {
  }

  /** A session that keeps going keeps its player in a reachable state. */
  lemma TickKeepsPlayerReachable(s: Session, keys: Keys, roll: SpawnRoll, overlap: Overlap, measure: Measure)
    requires Reachable(s.player)
    ensures Reachable(Tick(s, keys, roll, overlap, measure).session.player)
  {
    UpdatePreservesReachable(s.player, keys);
  }
}

=== FILE: obstacles.dfy ===
/**
 * Obstacles: cacti and birds created at the right edge of the screen,
 * scrolled left every tick and dropped once fully off the left edge
 * (classes Obstacle, SmallCactus, LargeCactus and Bird, and
 * DinoGame.spawn_obstacles, in main.py).
 */
module Obstacles {
  import opened Sprites
  import opened Selection

  const SCREEN_WIDTH: real := 1100.0
  const SMALL_CACTUS_Y: real := 325.0
  const LARGE_CACTUS_Y: real := 300.0
  const BIRD_Y: real := 250.0
  /** Spawning stops once this many obstacles are on screen. */
  const MAX_OBSTACLES: nat := 2
  /** A bird shows each of its two frames for this many ticks. */
  const BIRD_TICKS_PER_FRAME: nat := 5

  /** A draw of random.randint(0, 60), the 1-in-61 chance of an extra spawn. */
  type SpawnGate = i: int | 0 <= i <= 60
  /** A draw of random.randint(0, 2): obstacle kind, or cactus variant. */
  type Die3 = i: int | 0 <= i <= 2

  /** The random draws `spawn_obstacles` may make on one tick. */
  datatype SpawnRoll = SpawnRoll(gate: SpawnGate, kind: Die3, variant: Die3)

  /** Which obstacle, with what a bird counts to pick its animation frame. */
  datatype Sprite =
    | SmallCactus(variant: Variant)
    | LargeCactus(variant: Variant)
    | Bird(index: nat)

  /** An obstacle and its rectangle (top-left corner, width and height). */
  datatype Obstacle = Obstacle(sprite: Sprite, x: real, y: real, width: nat, height: nat)

  /**
   * The image an obstacle currently shows: a cactus keeps the variant drawn
   * when it was created, a bird flaps every five ticks.
   */
  function Image(o: Obstacle): (img: ObstacleImage)
    ensures o.sprite.SmallCactus? <==> img.SmallCactusImage?
    ensures o.sprite.LargeCactus? <==> img.LargeCactusImage?
    ensures o.sprite.SmallCactus? ==> img.variant == o.sprite.variant
    ensures o.sprite.LargeCactus? ==> img.variant == o.sprite.variant
    ensures o.sprite.Bird? ==> img.BirdImage? && img.frame == (o.sprite.index / BIRD_TICKS_PER_FRAME) % 2
  {
    match o.sprite
    case SmallCactus(v) => SmallCactusImage(v)
    case LargeCactus(v) => LargeCactusImage(v)
    case Bird(i) => BirdImage((i / BIRD_TICKS_PER_FRAME) % 2)
  }

  /**
   * A new obstacle of the drawn kind (0 small cactus, 1 large cactus,
   * otherwise bird) at the right edge of the screen, at its kind's height,
   * with the rectangle of its first image.
   */
  function Create(kind: Die3, variant: Die3, measure: Measure): (o: Obstacle)
    ensures o.x == SCREEN_WIDTH
    ensures kind == 0 ==> o.sprite == SmallCactus(variant) && o.y == SMALL_CACTUS_Y
    ensures kind == 1 ==> o.sprite == LargeCactus(variant) && o.y == LARGE_CACTUS_Y
    ensures kind == 2 ==> o.sprite == Bird(0) && o.y == BIRD_Y
    ensures measure(Image(o)) == Size(o.width, o.height)
  {
    var sprite := if kind == 0 then SmallCactus(variant) else if kind == 1 then LargeCactus(variant) else Bird(0);
    var y := if kind == 0 then SMALL_CACTUS_Y else if kind == 1 then LARGE_CACTUS_Y else BIRD_Y;
    var size := measure(Image(Obstacle(sprite, SCREEN_WIDTH, y, 0, 0)));
    Obstacle(sprite, SCREEN_WIDTH, y, size.width, size.height)
  }

  /**
   * `spawn_obstacles`: always spawn onto an empty screen, never once
   * MAX_OBSTACLES are on screen, and otherwise spawn when the gate draw is 0.
   * A spawn appends one obstacle and leaves the others as they were.
   */
  function Spawn(obstacles: seq<Obstacle>, roll: SpawnRoll, measure: Measure): (r: seq<Obstacle>)
    ensures |obstacles| == 0 ==> |r| == 1
    ensures |obstacles| >= MAX_OBSTACLES ==> r == obstacles
    ensures 0 < |obstacles| < MAX_OBSTACLES ==> (|r| == |obstacles| + 1 <==> roll.gate == 0)
    ensures |obstacles| <= |r| <= |obstacles| + 1 && r[..|obstacles|] == obstacles
    ensures |obstacles| <= MAX_OBSTACLES ==> |r| <= MAX_OBSTACLES
    ensures |r| == |obstacles| + 1 ==> r[|obstacles|] == Create(roll.kind, roll.variant, measure)
  {
    if |obstacles| == 0 || (|obstacles| < MAX_OBSTACLES && roll.gate == 0) then
      obstacles + [Create(roll.kind, roll.variant, measure)]
    else
      obstacles
  }

  /** Fully past the left edge of the screen. */
  predicate OffScreen(o: Obstacle) {
    o.x < -(o.width as real)
  }

  /**
   * `update` (and Bird's override): move left by the game speed; a bird
   * also advances its animation counter. The rectangle's size stays.
   */
  function Advance(o: Obstacle, speed: real): (r: Obstacle)
    ensures r.x == o.x - speed
    ensures r.y == o.y && r.width == o.width && r.height == o.height
    ensures r.sprite.Bird? <==> o.sprite.Bird?
    ensures o.sprite.Bird? ==> r.sprite.index == o.sprite.index + 1
    ensures !o.sprite.Bird? ==> r.sprite == o.sprite
  {
    var sprite := if o.sprite.Bird? then Bird(o.sprite.index + 1) else o.sprite;
    o.(sprite := sprite, x := o.x - speed)
  }

  /** Every obstacle advanced by `speed`. */
  function AdvanceAll(obstacles: seq<Obstacle>, speed: real): (r: seq<Obstacle>)
    ensures |r| == |obstacles|
    ensures forall i :: 0 <= i < |r| ==> r[i] == Advance(obstacles[i], speed)
  {
    seq(|obstacles|, i requires 0 <= i < |obstacles| => Advance(obstacles[i], speed))
  }

  /** For each advanced obstacle, whether it is still (partly) on screen. */
  function StillOnScreen(obstacles: seq<Obstacle>): (r: seq<bool>)
    ensures |r| == |obstacles|
    ensures forall i :: 0 <= i < |r| ==> (r[i] <==> !OffScreen(obstacles[i]))
  {
    seq(|obstacles|, i requires 0 <= i < |obstacles| => !OffScreen(obstacles[i]))
  }

  /**
   * The per-tick loop over a copy of the obstacle list: advance each
   * obstacle and remove the ones whose `update` returned true.
   */
  function Scroll(obstacles: seq<Obstacle>, speed: real): (r: seq<Obstacle>)
    ensures |r| <= |obstacles|
    ensures forall o :: o in r ==> !OffScreen(o)
  {
    var moved := AdvanceAll(obstacles, speed);
    var keep := StillOnScreen(moved);
    assert forall j :: 0 <= j < Count(keep) ==> !OffScreen(Select(moved, keep)[j]) by {
      forall j | 0 <= j < Count(keep)
        ensures !OffScreen(Select(moved, keep)[j])
      {
        SelectAt(moved, keep, j);
      }
    }
    Select(moved, keep)
  }

  /**
   * The obstacles that survive a scroll are exactly those still on screen
   * after moving, each moved by exactly `speed`, in their original order.
   */
  lemma ScrollKeepsOnScreenInOrder(obstacles: seq<Obstacle>, speed: real)
    ensures var r := Scroll(obstacles, speed);
      var kept := Kept(StillOnScreen(AdvanceAll(obstacles, speed)));
      && |kept| == |r|
      && (forall j :: 0 <= j < |r| ==> kept[j] < |obstacles| && r[j] == Advance(obstacles[kept[j]], speed))
      && (forall j, k :: 0 <= j < k < |kept| ==> kept[j] < kept[k])
      && (forall i :: 0 <= i < |obstacles| ==> (i in kept <==> !OffScreen(Advance(obstacles[i], speed))))
  {
    var moved := AdvanceAll(obstacles, speed);
    var keep := StillOnScreen(moved);
    forall j | 0 <= j < Count(keep)
      ensures Select(moved, keep)[j] == moved[Kept(keep)[j]]
    {
      SelectAt(moved, keep, j);
    }
    forall i | 0 <= i < |obstacles| && keep[i]
      ensures i in Kept(keep)
    {
      KeptComplete(keep, i);
    }
  }

  /** An obstacle survives a scroll iff it is still on screen once moved. */
  lemma ScrollMembers(obstacles: seq<Obstacle>, speed: real)
    ensures forall i :: 0 <= i < |obstacles| && !OffScreen(Advance(obstacles[i], speed)) ==>
      Advance(obstacles[i], speed) in Scroll(obstacles, speed)
    ensures forall o :: o in Scroll(obstacles, speed) ==>
      exists i :: 0 <= i < |obstacles| && o == Advance(obstacles[i], speed)
  {
    var r := Scroll(obstacles, speed);
    ScrollKeepsOnScreenInOrder(obstacles, speed);
    var kept := Kept(StillOnScreen(AdvanceAll(obstacles, speed)));
    forall i | 0 <= i < |obstacles| && !OffScreen(Advance(obstacles[i], speed))
      ensures Advance(obstacles[i], speed) in r
    {
      var j :| 0 <= j < |kept| && kept[j] == i;
      assert r[j] == Advance(obstacles[i], speed);
    }
    forall o | o in r
      ensures exists i :: 0 <= i < |obstacles| && o == Advance(obstacles[i], speed)
    {
      var j :| 0 <= j < |r| && r[j] == o;
      assert o == Advance(obstacles[kept[j]], speed);
    }
  }

  /** A cactus looks the same on every tick: moving never changes its image. */
  lemma CactusImageFixed(o: Obstacle, speed: real)
    requires !o.sprite.Bird?
    ensures Image(Advance(o, speed)) == Image(o)
  {
  }

  /**
   * A bird changes frame on exactly one tick in five: the tick its counter
   * reaches a multiple of BIRD_TICKS_PER_FRAME.
   */
  lemma BirdFlaps(o: Obstacle, speed: real)
    requires o.sprite.Bird?
    ensures Image(Advance(o, speed)).frame != Image(o).frame <==>
      (o.sprite.index + 1) % BIRD_TICKS_PER_FRAME == 0
  {
  }

  /** A bird's frame index, index // 5 % 2, is always 0 or 1. */
  lemma BirdFrameInRange(o: Obstacle)
    requires o.sprite.Bird?
    ensures (o.sprite.index / BIRD_TICKS_PER_FRAME) % 2 in {0, 1}
  {
  }
}

=== FILE: options.dfy ===
/** An optional value, used where the game answers "no such obstacle". */
module Options {

  datatype Option<+T> = None | Some(value: T)
}

=== FILE: perception.dfy ===
/**
 * What a network sees of the game: the five inputs `get_ai_inputs` builds
 * from the nearest obstacle ahead of the dinosaur.
 */
module Perception {
  import opened Options
  import opened Dinosaur
  import opened Obstacles

  const SCREEN_HEIGHT: real := 600.0
  /** Divisor of an obstacle's width and height. */
  const SIZE_SCALE: real := 100.0
  /** Divisor of the game speed. */
  const SPEED_SCALE: real := 50.0
  const FEATURE_COUNT: nat := 5

  /** Strictly to the right of the dinosaur's left edge. */
  predicate Ahead(o: Obstacle, d: Dino) {
    o.x > d.x
  }

  /** The key `get_ai_inputs` minimises: how far the obstacle is ahead. */
  function Distance(o: Obstacle, d: Dino): real {
    o.x - d.x
  }

  /**
   * The obstacle Python's `min` picks among obstacles[..n] that are ahead:
   * one at the least distance, the first such when several tie; None when
   * nothing is ahead.
   */
  function NearestAhead(obstacles: seq<Obstacle>, d: Dino, n: nat): (r: Option<nat>)
    requires n <= |obstacles|
    ensures r.None? <==> forall i :: 0 <= i < n ==> !Ahead(obstacles[i], d)
    ensures r.Some? ==> r.value < n && Ahead(obstacles[r.value], d)
    ensures r.Some? ==> forall i :: 0 <= i < n && Ahead(obstacles[i], d) ==>
      Distance(obstacles[r.value], d) <= Distance(obstacles[i], d)
    ensures r.Some? ==> forall i :: 0 <= i < r.value && Ahead(obstacles[i], d) ==>
      Distance(obstacles[r.value], d) < Distance(obstacles[i], d)
    decreases n
  {
    if n == 0 then None
    else
      var best := NearestAhead(obstacles, d, n - 1);
      var o := obstacles[n - 1];
      if Ahead(o, d) && (best.None? || Distance(o, d) < Distance(obstacles[best.value], d)) then
        Some(n - 1)
      else
        best
  }

  /**
   * `get_ai_inputs`: distance to the nearest obstacle ahead over the screen
   * width, its width and height over 100, the dinosaur's height over the
   * screen height and the speed over 50; five zeros when nothing is ahead.
   */
  function Features(obstacles: seq<Obstacle>, d: Dino, speed: real): (f: seq<real>)
    ensures |f| == FEATURE_COUNT
    ensures (forall i :: 0 <= i < |f| ==> f[i] == 0.0) <==> (forall o :: o in obstacles ==> !Ahead(o, d))
    ensures (exists o :: o in obstacles && Ahead(o, d)) ==>
      && f[0] > 0.0
      && f[3] == d.y / SCREEN_HEIGHT
      && f[4] == speed / SPEED_SCALE
      && (forall o :: o in obstacles && Ahead(o, d) ==> f[0] <= Distance(o, d) / SCREEN_WIDTH)
      && (exists o :: o in obstacles && Ahead(o, d)
            && f[0] == Distance(o, d) / SCREEN_WIDTH
            && f[1] == (o.width as real) / SIZE_SCALE
            && f[2] == (o.height as real) / SIZE_SCALE)
    // among obstacles tied at the least distance, the first one is described
    ensures NearestAhead(obstacles, d, |obstacles|).Some? ==>
      var o := obstacles[NearestAhead(obstacles, d, |obstacles|).value];
      && f[0] == Distance(o, d) / SCREEN_WIDTH
      && f[1] == (o.width as real) / SIZE_SCALE
      && f[2] == (o.height as real) / SIZE_SCALE
  {
    match NearestAhead(obstacles, d, |obstacles|)
    case None => [0.0, 0.0, 0.0, 0.0, 0.0]
    case Some(i) =>
      var o := obstacles[i];
      [Distance(o, d) / SCREEN_WIDTH,
       (o.width as real) / SIZE_SCALE,
       (o.height as real) / SIZE_SCALE,
       d.y / SCREEN_HEIGHT,
       speed / SPEED_SCALE]
  }
}

=== FILE: selection.dfy ===
/**
 * Order-preserving removal by flags. Both per-tick filters of the game have
 * this shape: the obstacles that scrolled off-screen are dropped from the
 * obstacle list, and the dinosaurs that collided are dropped from the three
 * parallel lists of dinosaurs, networks and genomes.
 */
module Selection {

  /** Number of flags that are set. */
  function Count(keep: seq<bool>): (n: nat)
    ensures n <= |keep|
  {
    if |keep| == 0 then 0 else (if keep[0] then 1 else 0) + Count(keep[1..])
  }

  /** The elements of `s` whose flag is set, in their original order. */
  function Select<T>(s: seq<T>, keep: seq<bool>): (r: seq<T>)
    requires |keep| == |s|
    ensures |r| == Count(keep)
    ensures forall x :: x in r ==> x in s
  {
    if |s| == 0 then []
    else (if keep[0] then [s[0]] else []) + Select(s[1..], keep[1..])
  }

  /** Positions of the set flags, in increasing order: where each survivor came from. */
  function Kept(keep: seq<bool>): (r: seq<nat>)
    ensures |r| == Count(keep)
    ensures forall j :: 0 <= j < |r| ==> r[j] < |keep| && keep[r[j]]
    ensures forall j, k :: 0 <= j < k < |r| ==> r[j] < r[k]
  {
    KeptFrom(keep, 0)
  }

  /** Positions of the set flags, each counted from `base`. */
  function KeptFrom(keep: seq<bool>, base: nat): (r: seq<nat>)
    ensures |r| == Count(keep)
    ensures forall j :: 0 <= j < |r| ==> base <= r[j] < base + |keep| && keep[r[j] - base]
    ensures forall j, k :: 0 <= j < k < |r| ==> r[j] < r[k]
  {
    if |keep| == 0 then []
    else
      var rest := KeptFrom(keep[1..], base + 1);
      if keep[0] then [base] + rest else rest
  }

  /** Every set flag's position is among the kept positions. */
  lemma KeptComplete(keep: seq<bool>, i: nat)
    requires i < |keep| && keep[i]
    ensures i in Kept(keep)
  {
    KeptFromComplete(keep, 0, i);
  }

  lemma {:induction false} KeptFromComplete(keep: seq<bool>, base: nat, i: nat)
    requires i < |keep| && keep[i]
    ensures base + i in KeptFrom(keep, base)
  {
    if i > 0 {
      KeptFromComplete(keep[1..], base + 1, i - 1);
    }
  }

  /** The j-th survivor of `Select` is the element at the j-th kept position. */
  lemma SelectAt<T>(s: seq<T>, keep: seq<bool>, j: nat)
    requires |keep| == |s|
    requires j < Count(keep)
    ensures Select(s, keep)[j] == s[Kept(keep)[j]]
  {
    SelectAtFrom(s, keep, j, 0);
  }

  lemma {:induction false} SelectAtFrom<T>(s: seq<T>, keep: seq<bool>, j: nat, base: nat)
    requires |keep| == |s|
    requires j < Count(keep)
    ensures Select(s, keep)[j] == s[KeptFrom(keep, base)[j] - base]
  {
    var rest := KeptFrom(keep[1..], base + 1);
    var tail := Select(s[1..], keep[1..]);
    if keep[0] {
      if j > 0 {
        SelectAtFrom(s[1..], keep[1..], j - 1, base + 1);
        assert Select(s, keep)[j] == tail[j - 1];
        assert KeptFrom(keep, base)[j] == rest[j - 1];
      }
    } else {
      SelectAtFrom(s[1..], keep[1..], j, base + 1);
    }
  }

  /** No value occurs twice in `s`. */
  predicate Distinct<T(==)>(s: seq<T>) {
    forall i, j :: 0 <= i < j < |s| ==> s[i] != s[j]
  }

  /**
   * Filtering a list of distinct values keeps a value exactly when its flag
   * is set, and the survivors are still distinct.
   */
  lemma SelectDistinct<T>(s: seq<T>, keep: seq<bool>)
    requires |keep| == |s|
    requires Distinct(s)
    ensures Distinct(Select(s, keep))
    ensures forall i :: 0 <= i < |s| ==> (s[i] in Select(s, keep) <==> keep[i])
  {
    var r := Select(s, keep);
    var k := Kept(keep);
    forall j | 0 <= j < |r|
      ensures r[j] == s[k[j]]
    {
      SelectAt(s, keep, j);
    }
    forall i | 0 <= i < |s|
      ensures s[i] in r <==> keep[i]
    {
      if keep[i] {
        KeptComplete(keep, i);
        var j :| 0 <= j < |k| && k[j] == i;
        assert r[j] == s[i];
      }
      if s[i] in r {
        var j :| 0 <= j < |r| && r[j] == s[i];
        assert s[k[j]] == s[i];
      }
    }
  }
}

=== FILE: sprites.dfy ===
/**
 * The images the game draws and tests for collisions. Pixel data never
 * enters the model: an image is named by which sprite list it comes from
 * and its index in that list, its size is supplied by a `Measure`, and
 * pixel-mask overlap is supplied by an `Overlap` predicate.
 */
module Sprites {

  /** Index into a two-image animation list (run, duck, bird). */
  type Frame = i: int | 0 <= i <= 1

  /** Index into a three-image cactus list. */
  type Variant = i: int | 0 <= i <= 2

  /** The dinosaur's current image: RUNNING[i], DUCKING[i] or JUMPING. */
  datatype DinoImage = RunImage(frame: Frame) | DuckImage(frame: Frame) | JumpImage

  /** An obstacle's current image: SMALL_CACTUS[i], LARGE_CACTUS[i] or BIRD[i]. */
  datatype ObstacleImage =
    | SmallCactusImage(variant: Variant)
    | LargeCactusImage(variant: Variant)
    | BirdImage(frame: Frame)

  /** Width and height of an image's bounding rectangle, in pixels. */
  datatype Size = Size(width: nat, height: nat)

  /** The size of each obstacle image, as loaded from the assets. */
  type Measure = ObstacleImage -> Size

  /**
   * Mask overlap: do the dinosaur image's opaque pixels meet the obstacle
   * image's opaque pixels when the obstacle is drawn at offset (dx, dy)
   * from the dinosaur?
   */
  type Overlap = (DinoImage, ObstacleImage, real, real) -> bool
}

=== FILE: world.dfy ===
/**
 * The state every dinosaur of a game shares: the game speed, the score
 * shown on screen and the obstacle list, and the per-tick steps that change
 * it (fields game_speed, points and obstacles of DinoGame in main.py).
 */
module World {
  import opened Sprites
  import opened Obstacles

  const INITIAL_GAME_SPEED: real := 20.0
  const SPEED_INCREMENT: real := 0.001
  const POINT_INCREMENT: real := 0.25

  datatype WorldState = WorldState(speed: real, points: real, obstacles: seq<Obstacle>)

  /** The world as `reset` and `eval_genomes` set it up: no obstacles, no points. */
  function Start(): (w: WorldState)
    ensures |w.obstacles| == 0 && w.points == 0.0 && w.speed == INITIAL_GAME_SPEED
  {
    WorldState(INITIAL_GAME_SPEED, 0.0, [])
  }

  /** No more than MAX_OBSTACLES obstacles on screen. */
  predicate WithinCap(w: WorldState) {
    |w.obstacles| <= MAX_OBSTACLES
  }

  /**
   * The obstacle half of a tick: maybe spawn one obstacle, then advance all
   * of them at the current speed and drop those off-screen. Speed and score
   * do not change.
   */
  function MoveObstacles(w: WorldState, roll: SpawnRoll, measure: Measure): (r: WorldState)
    ensures r.speed == w.speed && r.points == w.points
    ensures WithinCap(w) ==> WithinCap(r)
    ensures forall o :: o in r.obstacles ==> !OffScreen(o)
    ensures |w.obstacles| == 0 ==> |r.obstacles| <= 1
  {
    w.(obstacles := Scroll(Spawn(w.obstacles, roll, measure), w.speed))
  }

  /**
   * Which obstacles a tick keeps: every old obstacle that is still on screen
   * once moved, and the spawned one when there was room for it and it is on
   * screen once moved; nothing else.
   */
  lemma MoveObstaclesKeepsOnScreen(w: WorldState, roll: SpawnRoll, measure: Measure)
    ensures forall i :: 0 <= i < |w.obstacles| && !OffScreen(Advance(w.obstacles[i], w.speed)) ==>
      Advance(w.obstacles[i], w.speed) in MoveObstacles(w, roll, measure).obstacles
    ensures ((|w.obstacles| == 0 || (|w.obstacles| < MAX_OBSTACLES && roll.gate == 0))
      && !OffScreen(Advance(Create(roll.kind, roll.variant, measure), w.speed))) ==>
      Advance(Create(roll.kind, roll.variant, measure), w.speed) in MoveObstacles(w, roll, measure).obstacles
    ensures forall o :: o in MoveObstacles(w, roll, measure).obstacles ==>
      o == Advance(Create(roll.kind, roll.variant, measure), w.speed)
      || exists i :: 0 <= i < |w.obstacles| && o == Advance(w.obstacles[i], w.speed)
  {
    var spawned := Spawn(w.obstacles, roll, measure);
    ScrollMembers(spawned, w.speed);
    assert forall i :: 0 <= i < |w.obstacles| ==> spawned[i] == w.obstacles[i];
    if |spawned| > |w.obstacles| {
      assert spawned[|w.obstacles|] == Create(roll.kind, roll.variant, measure);
    }
  }

  /** The clock half of a tick: speed and score grow by their increments. */
  function AdvanceClock(w: WorldState): (r: WorldState)
    ensures r.speed > w.speed && r.points > w.points
    ensures r.speed - w.speed == SPEED_INCREMENT && r.points - w.points == POINT_INCREMENT
    ensures r.obstacles == w.obstacles
  {
    w.(speed := w.speed + SPEED_INCREMENT, points := w.points + POINT_INCREMENT)
  }

  /** The clock after n ticks from `w`. */
  function AdvanceClockN(w: WorldState, n: nat): WorldState {
    if n == 0 then w else AdvanceClock(AdvanceClockN(w, n - 1))
  }

  /** After n ticks from the start the speed is 20 + n/1000 and the score n/4. */
  lemma {:induction false} ClockAfter(n: nat)
    ensures AdvanceClockN(Start(), n).speed == INITIAL_GAME_SPEED + (n as real) * SPEED_INCREMENT
    ensures AdvanceClockN(Start(), n).points == (n as real) * POINT_INCREMENT
  {
    if n > 0 {
      ClockAfter(n - 1);
    }
  }
}
